=== FILE: README.md ===
# CreeperRecover explosion policy, region gate and recover command

A Dafny model of the decision logic of the CreeperRecover server plugin,
which restores blocks destroyed by explosions. Three pieces are modelled:

- **The explosion handler** (`EntityExplodeListener.on`). It drops
  always-protected blocks from the event's block list. It then consults the
  WorldGuard location gate and the `usePlugin` check. It wraps the
  remaining list in a `BlockList`, strips blacklisted materials from the copy, hands the copy
  to the explosion manager, and sets the recorded blocks to AIR, passable
  blocks first. The handler is a pure function from the configuration, the
  collaborators' answers and the event's block list. It returns the block
  list the host destroys, the recorded blocks, and an ordered trace of
  `Record` and `SetAir` actions.
- **The WorldGuard gate** (`WorldGuardIntegration`). It covers the once-only
  `initialize`, the custom `creeper-recover` flag with ALLOW/DENY/unset
  precedence, and the fallback scan for a non-global region that allows TNT.
  Every reflective call is replaced by the value it returns. Any exception
  is one `failed` flag.
- **The `/recover` command** (`RecoverCommand`). It covers permission
  gating, argument dispatch, the `fix` count, the protected-block list with
  its PLAYER_HEAD → PLAYER_WALL_HEAD pairing, and the debug switch with its
  save-on-change rule. Tab completion is included. The state is the
  protected set, the debug flag and a count of configuration saves.

Supporting modules: `Wrappers` (Option), `Seqs` (order-preserving
filtering, partition, subsequence), `JavaText` (ASCII `equalsIgnoreCase`,
`toUpperCase`, `Integer.parseInt` and `Integer.toString`) and
`Materials` (material names and `Material.valueOf` over a given set of
constant names).

Three behaviours of the code worth knowing:

- `shouldSkipRecovery` falls back to the TNT scan whenever the custom flag
  is unset at the location; the method reads no configuration value.
- `fix <N>` with an N that `parseInt` rejects produces no error message. `parseInt`
  runs inside the lambda passed to `runAsync`, so the `catch` around the
  call never sees the exception. The model's reply is `RecoveryTaskFailed`
  and it requests no recovery.
- The listener calls `WorldGuardIntegration.isRecoveryDisabled`, which the
  integration class does not define. The listener's gate is therefore an
  input (`Environment.recoveryDisabled`). `shouldSkipRecovery` is modelled
  on its own.

## Model

| member | source | states |
|---|---|---|
| `ExplodeListener.OnExplode` | common/src/main/java/de/rafael/plugins/creeper/recover/common/listener/EntityExplodeListener.java:54-126 | A disabled plugin leaves the event untouched and records and clears nothing. A record exists exactly when the plugin is enabled, the location gate does not block and `usePlugin` holds. Without a record nothing is cleared. Both counters equal the number of blocks their pass dropped. |
| `ExplodeListener.WithoutMaterials` | common/src/main/java/de/rafael/plugins/creeper/recover/common/listener/EntityExplodeListener.java:60-68 | Nothing of the given materials survives and the list never grows. The handler uses it for the protected-block iterator pass and for the `removeIf` of blacklisted blocks on the copy (lines 101-103). |
| `ExplodeListener.ClearOrder` | common/src/main/java/de/rafael/plugins/creeper/recover/common/listener/EntityExplodeListener.java:122-124 | The two clearing streams together are a permutation of the recorded blocks, and no solid block comes before a passable one. |
| `ExplodeListener.DestroyedClearTrace` | common/src/main/java/de/rafael/plugins/creeper/recover/common/listener/EntityExplodeListener.java:122-124 | The blocks the clearing trace sets to AIR, read back in order, are exactly the clearing order: each block once, nothing else. |
| `ExplodeListener.ProtectedNeverDestroyed` | common/src/main/java/de/rafael/plugins/creeper/recover/common/listener/EntityExplodeListener.java:58-68 | With the plugin enabled, a block stays in the event exactly when it was there and is not protected. The survivors keep their relative order. `protectedRemoved` counts the protected blocks. |
| `ExplodeListener.GateSkipStillProtects` | common/src/main/java/de/rafael/plugins/creeper/recover/common/listener/EntityExplodeListener.java:77-84 | When WorldGuard reports recovery disabled, nothing is recorded and nothing is set to AIR. The protected blocks are still out of the event list. |
| `ExplodeListener.RecordedIsBlacklistFiltered` | common/src/main/java/de/rafael/plugins/creeper/recover/common/listener/EntityExplodeListener.java:97-114 | The recorded blocks are the remaining event blocks minus the blacklisted ones, occurrence for occurrence and in order. The blacklisted counter is the number of blacklisted blocks. |
| `ExplodeListener.BlacklistOnlyFiltersRecord` | common/src/main/java/de/rafael/plugins/creeper/recover/common/listener/EntityExplodeListener.java:87-102 | Changing the blacklist never changes the event's block list: blacklisted blocks are destroyed, only the copy is filtered. |
| `ExplodeListener.CaptureBeforeDestroy` | common/src/main/java/de/rafael/plugins/creeper/recover/common/listener/EntityExplodeListener.java:113-124 | The record is handed over as the first action. Every later action sets a recorded block to AIR. |
| `ExplodeListener.ClearedOncePassableFirst` | common/src/main/java/de/rafael/plugins/creeper/recover/common/listener/EntityExplodeListener.java:120-124 | The blocks set to AIR are the recorded blocks, each as often as it was recorded, and every passable one comes before every solid one. |
| `ExplodeListener.ThreeBlockExplosion` | common/src/main/java/de/rafael/plugins/creeper/recover/common/listener/EntityExplodeListener.java:54-124 | A protected head, blacklisted glass and plain stone: the event keeps glass and stone, only stone is recorded, and the trace is record-then-clear of stone. |
| `WorldGuard.Initialize` | common/src/main/java/de/rafael/plugins/creeper/recover/common/integration/WorldGuardIntegration.java:59-110 | After any call the integration is initialized. A call on an initialized integration changes nothing. A first call sets `worldGuardEnabled` to "plugin present and enabled", or to false when the lookup throws. The flag handle only changes when WorldGuard is enabled and registration got past constructing the flag. A first call that finds WorldGuard enabled leaves the handle set exactly when it was set already or the flag object got constructed, even if `register` then threw. |
| `WorldGuard.ScanTnt` | common/src/main/java/de/rafael/plugins/creeper/recover/common/integration/WorldGuardIntegration.java:247-265 | The early-return region loop gives true exactly when some applicable region other than `__global__` sets TNT to ALLOW. |
| `WorldGuard.TntExplicitlyAllowed` | common/src/main/java/de/rafael/plugins/creeper/recover/common/integration/WorldGuardIntegration.java:200-273 | True only with WorldGuard enabled, no failure and a region manager. In that case it is true exactly when some applicable region other than `__global__` allows TNT. |
| `WorldGuard.ShouldSkipRecovery` | common/src/main/java/de/rafael/plugins/creeper/recover/common/integration/WorldGuardIntegration.java:132-191 | Skipping requires WorldGuard enabled, a flag handle, no failure and a region manager, and never happens when the custom flag is ALLOW. |
| `WorldGuard.ScanRegions` | common/src/main/java/de/rafael/plugins/creeper/recover/common/integration/WorldGuardIntegration.java:247-265 | The loop in its written, imperative form: it returns true exactly when some non-`__global__` region sets TNT to ALLOW, agreeing with `ScanTnt`. The index it stops at is the first such region, a fact the functional `ScanTnt` does not expose. |
| `WorldGuard.InitializeOnceOnly` | common/src/main/java/de/rafael/plugins/creeper/recover/common/integration/WorldGuardIntegration.java:59-79 | Any later `initialize` call leaves the state of the first call unchanged. |
| `WorldGuard.UnavailableNeverSkips` | common/src/main/java/de/rafael/plugins/creeper/recover/common/integration/WorldGuardIntegration.java:133-135 | WorldGuard disabled or no flag handle: recovery is never skipped. |
| `WorldGuard.FlagOverridesRegions` | common/src/main/java/de/rafael/plugins/creeper/recover/common/integration/WorldGuardIntegration.java:174-180 | Custom flag ALLOW gives false and DENY gives true, whatever the regions' TNT flags are. |
| `WorldGuard.UnsetFlagFallsBackToTnt` | common/src/main/java/de/rafael/plugins/creeper/recover/common/integration/WorldGuardIntegration.java:183-184 | With the custom flag unset, the decision equals the TNT scan. |
| `WorldGuard.GlobalRegionIgnored` | common/src/main/java/de/rafael/plugins/creeper/recover/common/integration/WorldGuardIntegration.java:247-252 | Inserting a `__global__` region with any TNT value anywhere among the applicable regions never changes the TNT scan. |
| `WorldGuard.NoRegionManagerAllows` | common/src/main/java/de/rafael/plugins/creeper/recover/common/integration/WorldGuardIntegration.java:155-157 | No region manager for the world: both `shouldSkipRecovery` and the TNT scan (lines 224-226) give false. |
| `WorldGuard.FailureAllows` | common/src/main/java/de/rafael/plugins/creeper/recover/common/integration/WorldGuardIntegration.java:186-190 | Any exception along the reflective chain gives false in both functions (the TNT scan's catch is at lines 267-272): default allow. |
| `WorldGuard.RegisterFailureKeepsTntFallback` | common/src/main/java/de/rafael/plugins/creeper/recover/common/integration/WorldGuardIntegration.java:94-108 | As written, for every start-up where `register` throws after the flag was built: with the custom flag unset, recovery is skipped exactly when some applicable region allows TNT. |
| `WorldGuard.InitializeIntended` | common/src/main/java/de/rafael/plugins/creeper/recover/common/integration/WorldGuardIntegration.java:59-110 | `initialize` with the corrected registration: once-only, the same `worldGuardEnabled` as the written code, the handle only changes after a successful registration, and a first call that finds WorldGuard enabled leaves the handle set exactly when it was set already or the flag got registered. |
| `WorldGuard.InitializeDiffersOnlyAfterConstruction` | common/src/main/java/de/rafael/plugins/creeper/recover/common/integration/WorldGuardIntegration.java:94-108 | The written and the corrected start-up agree except when `register` throws after the flag was built. In that case the written one leaves a handle and the corrected one does not. |
| `WorldGuard.RegisteredDenySkips` | common/src/main/java/de/rafael/plugins/creeper/recover/common/integration/WorldGuardIntegration.java:133-180 | With the corrected registration, a successful start-up makes the flag effective: DENY at the location skips recovery. |
| `WorldGuard.RegistrationFailureNeverRestricts` | common/src/main/java/de/rafael/plugins/creeper/recover/common/integration/WorldGuardIntegration.java:133-135 | With the corrected registration, a failed registration never leads to skipped recovery. |
| `RecoverCommand.OnCommand` | common/src/main/java/de/rafael/plugins/creeper/recover/common/command/RecoverCommand.java:58-156 | Without `creeper.recover.command` nothing changes and the reply is NO_PERMISSION. A recovery request comes only from `fix <arg>` and changes no state. Each command saves at most once. The protected set changes only by reload or for an admin, and the debug flag only by reload or for a debug-permission holder. The state changes only for `reload`, for `protected add|remove` of a known material, and for `debug enable|disable`. Every other input leaves it unchanged: `fix`, `stats`, help, `protected list`, usage and an unknown material. Every rejected or read-only reply goes with an unchanged state. |
| `RecoverCommand.FixAllRequestsEverything` | common/src/main/java/de/rafael/plugins/creeper/recover/common/command/RecoverCommand.java:69-72 | `fix all` in any letter case requests `Integer.MAX_VALUE` blocks and changes nothing else. |
| `RecoverCommand.FixNumberRequestsExactly` | common/src/main/java/de/rafael/plugins/creeper/recover/common/command/RecoverCommand.java:75-80 | `fix N`, for N an optional `+` or `-`, any number of leading zeros and decimal digits, requests exactly the signed value when it fits in an `int`. Otherwise the recovery task fails and nothing is requested. |
| `RecoverCommand.AddProtected` | common/src/main/java/de/rafael/plugins/creeper/recover/common/command/RecoverCommand.java:192-215 | The material is protected afterwards and nothing is unprotected. The configuration is saved exactly when the set changed. An already protected material changes nothing. At most the material and PLAYER_WALL_HEAD are added, and PLAYER_WALL_HEAD is added only for PLAYER_HEAD or itself. |
| `RecoverCommand.RemoveProtected` | common/src/main/java/de/rafael/plugins/creeper/recover/common/command/RecoverCommand.java:216-239 | The material is unprotected afterwards and nothing is newly protected. The configuration is saved exactly when the set changed. An unprotected material changes nothing. At most the material and PLAYER_WALL_HEAD are removed, and PLAYER_WALL_HEAD is removed only for PLAYER_HEAD or itself. |
| `RecoverCommand.SetDebug` | common/src/main/java/de/rafael/plugins/creeper/recover/common/command/RecoverCommand.java:119-139 | The debug flag ends as requested, the protected set is untouched, and the configuration is saved only if the flag changed. |
| `RecoverCommand.HandleProtected` | common/src/main/java/de/rafael/plugins/creeper/recover/common/command/RecoverCommand.java:176-244 | The protected sub-commands never touch the debug flag. `protected` and `protected list` reply with the current set and change nothing. The state changes only for a three-word `add` or `remove` of a known material, and then the reply is Added or Removed. Usage, an unknown material and a no-op edit leave it unchanged. |
| `RecoverCommand.HandleDebug` | common/src/main/java/de/rafael/plugins/creeper/recover/common/command/RecoverCommand.java:110-151 | The debug sub-commands never touch the protected set. Bare `debug` replies with the current flag and changes nothing. The state changes only for `debug enable` or `debug disable`, and then the reply is DebugChanged. Usage and a no-op switch leave it unchanged. |
| `RecoverCommand.AddingHeadAddsWallHead` | common/src/main/java/de/rafael/plugins/creeper/recover/common/command/RecoverCommand.java:196-201 | Newly protecting PLAYER_HEAD adds both PLAYER_HEAD and PLAYER_WALL_HEAD, with one save. |
| `RecoverCommand.AddingProtectedHeadAddsNothing` | common/src/main/java/de/rafael/plugins/creeper/recover/common/command/RecoverCommand.java:196-211 | Re-adding a protected PLAYER_HEAD changes nothing, does not save and does not add a missing PLAYER_WALL_HEAD. |
| `RecoverCommand.RemovingHeadRemovesWallHead` | common/src/main/java/de/rafael/plugins/creeper/recover/common/command/RecoverCommand.java:220-225 | Removing a protected PLAYER_HEAD leaves neither PLAYER_HEAD nor PLAYER_WALL_HEAD, with one save. |
| `RecoverCommand.WallHeadLeavesHeadAlone` | common/src/main/java/de/rafael/plugins/creeper/recover/common/command/RecoverCommand.java:196-225 | Adding or removing PLAYER_WALL_HEAD never changes whether PLAYER_HEAD is protected. |
| `RecoverCommand.AddThenRemoveRestores` | common/src/main/java/de/rafael/plugins/creeper/recover/common/command/RecoverCommand.java:192-239 | Removing a freshly added material restores the protected set, after two saves, unless the material is PLAYER_HEAD and PLAYER_WALL_HEAD was already protected on its own. |
| `RecoverCommand.HeadRoundTripDropsWallHead` | common/src/main/java/de/rafael/plugins/creeper/recover/common/command/RecoverCommand.java:196-225 | A PLAYER_WALL_HEAD protected on its own is lost by adding and then removing PLAYER_HEAD. |
| `RecoverCommand.ProtectedEditsIdempotent` | common/src/main/java/de/rafael/plugins/creeper/recover/common/command/RecoverCommand.java:196-235 | Adding twice equals adding once, and removing twice equals removing once. |
| `RecoverCommand.ProtectedCommandEdits` | common/src/main/java/de/rafael/plugins/creeper/recover/common/command/RecoverCommand.java:103-105 | `protected add <name>` or `protected remove <name>` from an admin edits the set with the material named by the upper-cased argument. |
| `RecoverCommand.DebugCommandIdempotent` | common/src/main/java/de/rafael/plugins/creeper/recover/common/command/RecoverCommand.java:110-139 | `debug enable` or `debug disable` leaves the flag as requested and saves only on a change. Repeating the command changes nothing. |
| `RecoverCommand.TabComplete` | common/src/main/java/de/rafael/plugins/creeper/recover/common/command/RecoverCommand.java:248-275 | The first argument completes to fix, reload, stats, then `debug` exactly with the debug permission and `protected` exactly with the admin permission. Without the matching permission, `debug` and `protected` offer no further completions. No arguments, or more than three, complete to nothing. |
| `RecoverCommand.FixCompletionsAccepted` | common/src/main/java/de/rafael/plugins/creeper/recover/common/command/RecoverCommand.java:259-260 | Five completions are offered after `fix`, `all` among them, and every one is accepted by `fix` and requests a positive count. |
| `RecoverCommand.DebugCompletionsAccepted` | common/src/main/java/de/rafael/plugins/creeper/recover/common/command/RecoverCommand.java:261-263 | A debug-permission holder is offered two completions after `debug`, and each is a valid switch: `debug <c>` changes the flag or reports it already set. |
| `RecoverCommand.ProtectedCompletionsAccepted` | common/src/main/java/de/rafael/plugins/creeper/recover/common/command/RecoverCommand.java:264-266 | An admin is offered three completions after `protected`. Each one either lists the current set, or, followed by a known material, reaches the matching add or remove edit. |
| `JavaText.ParseInt` | common/src/main/java/de/rafael/plugins/creeper/recover/common/command/RecoverCommand.java:76 | A parsed value is always a Java `int`, and the input is an optional sign followed by decimal digits. Empty input and a bare sign are rejected. |
| `JavaText.ParseIntDecimal` | common/src/main/java/de/rafael/plugins/creeper/recover/common/command/RecoverCommand.java:76 | `parseInt` of an optional `+` or `-`, any number of leading zeros and the decimal digits of n gives the signed value of n when it fits in an `int`, and throws otherwise. |
| `JavaText.DigitsAreZerosAndDecimal` | common/src/main/java/de/rafael/plugins/creeper/recover/common/command/RecoverCommand.java:76 | Every non-empty digit string is some leading zeros followed by the decimal digits of its value, so `ParseIntDecimal` covers every input that `ParseInt` accepts. |
| `JavaText.ParseIntToString` | common/src/main/java/de/rafael/plugins/creeper/recover/common/command/RecoverCommand.java:76 | `parseInt(Integer.toString(n)) == n` for every `int` n. |

## Findings

| source | as written | input that shows it | evidently intended | confidence | as-written member | corrected member |
|---|---|---|---|---|---|---|
| common/src/main/java/de/rafael/plugins/creeper/recover/common/integration/WorldGuardIntegration.java:94-101 | The flag handle is stored before `register` is called. A `register` that throws still leaves the handle non-null. | WorldGuard enabled, `register` throws (for instance a flag-name conflict), custom flag unset, and a non-global region with TNT ALLOW. `shouldSkipRecovery` returns true. | The guard at line 133, whose comment ties a missing handle to a failed registration, returns false whenever registration failed. | low, not executed | `WorldGuard.RegisterFailureKeepsTntFallback` | `WorldGuard.InitializeIntended` |

## Left out

- The explosion manager (queue, `recoverBlocks` drain, restoration), the configuration manager, the message manager and the statistics are not part of this model. `handle(explosion)` is the `Record` action, and `recoverBlocks(n)` is the `RecoveryScheduled(n)` reply.
- `BlockList` is not part of this model. Its constructor is taken to copy the event's list, as the comment on the blacklist filter says. If it wrapped the event's own list, `removeIf` would also drop blacklisted blocks from the event, and `BlacklistOnlyFiltersRecord` would not hold.
- Materials.ValueOf: `Material.valueOf` is abstracted to membership of the name in a given set of constant names (`Env.materialNames`). The server's actual list of materials is not modelled.
- `usePlugin(event)` is an opaque input. `isProtectedBlock` is taken to be membership in the protected set.
- `WorldGuardIntegration.isRecoveryDisabled` is not defined in the integration class, so the listener's gate is an input.
- The reflective calls into WorldGuard (`Class.forName`, `getMethod`, `invoke`) are replaced by the values they return. All exceptions on that path are one `failed` flag. `shouldSkipRecovery` and its TNT scan see the same region lookup.
- `addProtectedBlock` and `removeProtectedBlock` are taken to be set insertion and removal that report whether the set changed.
- `saveConfig` is counted and not otherwise modelled. `reload` replaces the protected set and debug flag by the stored values (`Env.stored`). The message file reload is left out.
- `runAsync` threading: the `fix` request is modelled as the count handed to `recoverBlocks`, not as the scheduling of a task.
- Chat and console text, colour codes, debug messages and the list and status printouts are left out. Replies carry only what decides them.
- `onCommand`'s return value, which is always false, is left out.
- `setYield(100)` is a game effect and is left out.
- Location coordinates are left out: positions are opaque identifiers, and a block's passability is fixed while the handler runs.
- JavaText.EqualsIgnoreCase: the model folds ASCII letters only, while Java's `equalsIgnoreCase` folds every Unicode letter (for example the dotless i).
- JavaText.ToUpperCase: the model upper-cases ASCII letters only. Java's `toUpperCase()` also maps some non-ASCII letters to ASCII in every locale, for example `ı` (dotless i) to `I` and `ſ` (long s) to `S`. Under a Turkish locale it maps `i` to a dotted capital I. Arguments containing such letters diverge: Java's `protected add ıtem_frame` adds ITEM_FRAME and the model answers "Invalid material", while under a Turkish locale `protected add item_frame` is the other way round. Material names with non-ASCII letters are not covered either.
- JavaText.ParseInt: accepts ASCII digits only. Java's `Character.digit` also accepts other Unicode decimal digits.
- The plugin's bootstrap and its five-minute statistics timer carry no decision logic and are left out.

=== FILE: explode_listener.dfy ===
/** `EntityExplodeListener.on`: what an explosion may destroy and what is
    recorded for restoration. Config lookups, the WorldGuard gate and
    `usePlugin` arrive as inputs; the world mutations the handler performs
    are returned as an ordered trace. */
module ExplodeListener {
  import opened Wrappers
  import opened Seqs
  import opened Materials

  /** A block position, opaque to the handler. */
  datatype Pos = Pos(id: int)

  /** One block of the event's block list. `passable` is the block's
      `isPassable()`, taken as fixed for the duration of the handler. */
  datatype Block = Block(pos: Pos, material: Material, passable: bool)

  /** The configuration values the handler reads. */
  datatype Config = Config(
    enabled: bool,
    protectedBlocks: set<Material>,
    blockBlacklist: set<Material>,
    worldguardIntegration: bool)

  /** Answers of collaborators the handler consults: `WorldGuardIntegration.isEnabled()`,
      `WorldGuardIntegration.isRecoveryDisabled(location)` and `usePlugin(event)`. */
  datatype Environment = Environment(worldGuardEnabled: bool, recoveryDisabled: bool, usePlugin: bool)

  /** A world-visible step of the handler: handing an explosion record to the
      explosion manager, or setting one block to AIR. */
  datatype Action = Record(blocks: seq<Block>) | SetAir(block: Block)

  /** What the handler leaves behind: the event's block list (which the host
      then destroys), the blocks handed over for restoration if any, the
      trace of actions, and the two counters of its debug messages. */
  datatype Outcome = Outcome(
    eventBlocks: seq<Block>,
    recorded: Option<seq<Block>>,
    trace: seq<Action>,
    protectedRemoved: nat,
    blacklistedRemoved: nat)

  predicate IsProtected(cfg: Config, b: Block) {
    b.material in cfg.protectedBlocks
  }

  predicate IsBlacklisted(cfg: Config, b: Block) {
    b.material in cfg.blockBlacklist
  }

  /** The blocks whose material is not in `materials`, in order: both the
      iterator pass that drops protected blocks from the event and the
      `removeIf` that drops blacklisted blocks from the copy. */
  function WithoutMaterials(materials: set<Material>, blocks: seq<Block>): (r: seq<Block>)
    ensures forall i :: 0 <= i < |r| ==> r[i].material !in materials
    ensures |r| <= |blocks|
  {
    Filter(blocks, (b: Block) => b.material !in materials)
  }

  /** The location gate: the integration switch in the configuration,
      WorldGuard being present, and WorldGuard reporting recovery disabled
      at the explosion's location. */
  predicate RecoveryBlocked(cfg: Config, env: Environment) {
    cfg.worldguardIntegration && env.worldGuardEnabled && env.recoveryDisabled
  }

  /** The two clearing streams: passable blocks first, then the rest. */
  function ClearOrder(blocks: seq<Block>): (r: seq<Block>)
    ensures multiset(r) == multiset(blocks)
    ensures forall i, j :: 0 <= i < j < |r| && r[j].passable ==> r[i].passable
  {
    PartitionPermutation(blocks, (b: Block) => b.passable, (b: Block) => !b.passable);
    PartitionOrdered(blocks, (b: Block) => b.passable, (b: Block) => !b.passable);
    Filter(blocks, (b: Block) => b.passable) + Filter(blocks, (b: Block) => !b.passable)
  }

  /** One `SetAir` action per block, in order. */
  function ClearTrace(order: seq<Block>): seq<Action>
  {
    seq(|order|, i requires 0 <= i < |order| => SetAir(order[i]))
  }

  /** The blocks a trace sets to AIR, in order. */
  function Destroyed(trace: seq<Action>): seq<Block>
  {
    if |trace| == 0 then []
    else (if trace[0].SetAir? then [trace[0].block] else []) + Destroyed(trace[1..])
  }

  /** Reading the cleared blocks back off a clearing trace. */
  lemma {:induction false} DestroyedClearTrace(order: seq<Block>)
    ensures Destroyed(ClearTrace(order)) == order
    decreases |order|
  {
    if |order| > 0 {
      var t := ClearTrace(order);
      assert t[1..] == ClearTrace(order[1..]);
      DestroyedClearTrace(order[1..]);
      assert order == [order[0]] + order[1..];
    }
  }

  /** The record step clears nothing. */
  lemma DestroyedClearingAfterRecord(rec: seq<Block>, order: seq<Block>)
    ensures Destroyed([Record(rec)] + ClearTrace(order)) == order
  {
    var t := [Record(rec)] + ClearTrace(order);
    assert t[1..] == ClearTrace(order);
    DestroyedClearTrace(order);
  }

  /** The handler `on(EntityExplodeEvent)`. */
  function OnExplode(cfg: Config, env: Environment, event: seq<Block>): (o: Outcome)
    ensures !cfg.enabled ==> o.eventBlocks == event && o.recorded.None? && o.trace == []
    ensures o.recorded.Some? <==> cfg.enabled && !RecoveryBlocked(cfg, env) && env.usePlugin
    ensures o.recorded.None? ==> o.trace == [] && o.blacklistedRemoved == 0
    ensures o.protectedRemoved == |event| - |o.eventBlocks|
    ensures o.recorded.Some? ==> o.blacklistedRemoved == |o.eventBlocks| - |o.recorded.value|
  {
    if !cfg.enabled then Outcome(event, None, [], 0, 0)
    else
      var kept := WithoutMaterials(cfg.protectedBlocks, event);
      var removed := |event| - |kept|;
      if RecoveryBlocked(cfg, env) || !env.usePlugin then Outcome(kept, None, [], removed, 0)
      else
        var recorded := WithoutMaterials(cfg.blockBlacklist, kept);
        Outcome(kept, Some(recorded), [Record(recorded)] + ClearTrace(ClearOrder(recorded)),
                removed, |kept| - |recorded|)
  }

  /** With the plugin enabled, exactly the non-protected blocks stay in the
      event, in their original order, and the counter reports how many were
      dropped. */
  lemma ProtectedNeverDestroyed(cfg: Config, env: Environment, event: seq<Block>)
    requires cfg.enabled
    ensures var o := OnExplode(cfg, env, event);
            && (forall b :: b in o.eventBlocks <==> b in event && !IsProtected(cfg, b))
            && SubsequenceOf(o.eventBlocks, event)
            && o.protectedRemoved == Count(event, b => IsProtected(cfg, b))
  {
    var p := (b: Block) => b.material !in cfg.protectedBlocks;
    forall b ensures b in Filter(event, p) <==> b in event && !IsProtected(cfg, b) {
      FilterMembership(event, p, b);
    }
    FilterIsSubsequence(event, p);
    FilterDropsCount(event, p, b => IsProtected(cfg, b));
  }

  /** When the location gate reports recovery disabled, nothing is recorded
      and nothing is cleared, but protected blocks are still kept out of the
      destruction. */
  lemma GateSkipStillProtects(cfg: Config, env: Environment, event: seq<Block>)
    requires cfg.enabled && RecoveryBlocked(cfg, env)
    ensures var o := OnExplode(cfg, env, event);
            && o.recorded.None? && Destroyed(o.trace) == []
            && o.eventBlocks == WithoutMaterials(cfg.protectedBlocks, event)
            && forall b :: b in o.eventBlocks ==> !IsProtected(cfg, b)
  {
    var o := OnExplode(cfg, env, event);
    forall b | b in o.eventBlocks ensures !IsProtected(cfg, b) {
      var i :| 0 <= i < |o.eventBlocks| && o.eventBlocks[i] == b;
    }
  }

  /** The recorded blocks are the event's remaining blocks minus the
      blacklisted ones, occurrence for occurrence and in order. */
  lemma RecordedIsBlacklistFiltered(cfg: Config, env: Environment, event: seq<Block>)
    requires cfg.enabled && !RecoveryBlocked(cfg, env) && env.usePlugin
    ensures var o := OnExplode(cfg, env, event);
            var rec := o.recorded.value;
            && (forall b :: multiset(rec)[b] == if IsBlacklisted(cfg, b) then 0 else multiset(o.eventBlocks)[b])
            && SubsequenceOf(rec, o.eventBlocks)
            && o.blacklistedRemoved == Count(o.eventBlocks, b => IsBlacklisted(cfg, b))
  {
    var o := OnExplode(cfg, env, event);
    var p := (b: Block) => b.material !in cfg.blockBlacklist;
    forall b ensures multiset(o.recorded.value)[b] == if IsBlacklisted(cfg, b) then 0 else multiset(o.eventBlocks)[b] {
      FilterMultiplicity(o.eventBlocks, p, b);
    }
    FilterIsSubsequence(o.eventBlocks, p);
    FilterDropsCount(o.eventBlocks, p, b => IsBlacklisted(cfg, b));
  }

  /** Only the copy is filtered: the blacklist has no say over which blocks
      the explosion destroys, only over which are recorded. */
  lemma BlacklistOnlyFiltersRecord(cfg: Config, env: Environment, event: seq<Block>, blacklist: set<Material>)
    ensures OnExplode(cfg.(blockBlacklist := blacklist), env, event).eventBlocks
            == OnExplode(cfg, env, event).eventBlocks
  {
    assert cfg.(blockBlacklist := blacklist).protectedBlocks == cfg.protectedBlocks;
  }

  /** Capture before destroy: the record is handed over first, every later
      step clears one block, and only recorded blocks are cleared. */
  lemma CaptureBeforeDestroy(cfg: Config, env: Environment, event: seq<Block>)
    requires cfg.enabled && !RecoveryBlocked(cfg, env) && env.usePlugin
    ensures var o := OnExplode(cfg, env, event);
            && |o.trace| > 0
            && o.trace[0] == Record(o.recorded.value)
            && (forall i :: 0 < i < |o.trace| ==> o.trace[i].SetAir? && o.trace[i].block in o.recorded.value)
  {
    var o := OnExplode(cfg, env, event);
    RecordThenClear(o.recorded.value);
  }

  /** The trace of one recorded explosion: the record, then one `SetAir` per
      block of the clearing order, each of them a recorded block. */
  lemma RecordThenClear(rec: seq<Block>)
    ensures var t := [Record(rec)] + ClearTrace(ClearOrder(rec));
            && t[0] == Record(rec)
            && (forall i :: 0 < i < |t| ==> t[i].SetAir? && t[i].block in rec)
  {
    var order := ClearOrder(rec);
    var clearing := ClearTrace(order);
    var t := [Record(rec)] + clearing;
    forall i | 0 < i < |t| ensures t[i].SetAir? && t[i].block in rec {
      assert t[i] == clearing[i - 1] == SetAir(order[i - 1]);
      assert order[i - 1] in multiset(order);
    }
  }

  /** Every recorded block is set to AIR exactly as often as it was recorded,
      and every passable block before any solid one. */
  lemma ClearedOncePassableFirst(cfg: Config, env: Environment, event: seq<Block>)
    requires cfg.enabled && !RecoveryBlocked(cfg, env) && env.usePlugin
    ensures var o := OnExplode(cfg, env, event);
            var d := Destroyed(o.trace);
            && multiset(d) == multiset(o.recorded.value)
            && forall i, j :: 0 <= i < j < |d| && d[j].passable ==> d[i].passable
  {
    var o := OnExplode(cfg, env, event);
    var rec := o.recorded.value;
    var order := ClearOrder(rec);
    assert o.trace == [Record(rec)] + ClearTrace(order);
    DestroyedClearingAfterRecord(rec, order);
    assert Destroyed(o.trace) == order;
  }

  /** Three blocks: a protected head, blacklisted glass and plain stone,
      with no region integration. The head survives, the glass is destroyed
      unrecorded, and only the stone is recorded and cleared. */
  lemma ThreeBlockExplosion()
    ensures var head := Block(Pos(1), PLAYER_HEAD, false);
            var glass := Block(Pos(2), Material("GLASS"), false);
            var stone := Block(Pos(3), Material("STONE"), false);
            var cfg := Config(true, {PLAYER_HEAD}, {Material("GLASS")}, false);
            var o := OnExplode(cfg, Environment(false, false, true), [head, glass, stone]);
            && o.eventBlocks == [glass, stone]
            && o.recorded == Some([stone])
            && o.trace == [Record([stone]), SetAir(stone)]
            && o.protectedRemoved == 1 && o.blacklistedRemoved == 1
  {
    var head := Block(Pos(1), PLAYER_HEAD, false);
    var glass := Block(Pos(2), Material("GLASS"), false);
    var stone := Block(Pos(3), Material("STONE"), false);
    var cfg := Config(true, {PLAYER_HEAD}, {Material("GLASS")}, false);
    assert Material("GLASS") != PLAYER_HEAD && Material("STONE") != PLAYER_HEAD;
    assert Material("STONE") != Material("GLASS");
    var keep := (b: Block) => b.material !in cfg.protectedBlocks;
    assert [head, glass, stone][1..] == [glass, stone];
    assert [glass, stone][1..] == [stone];
    assert [stone][1..] == [];
    assert Filter([stone], keep) == [stone];
    assert Filter([glass, stone], keep) == [glass, stone];
    assert Filter([head, glass, stone], keep) == [glass, stone];
    var record := (b: Block) => b.material !in cfg.blockBlacklist;
    assert Filter([stone], record) == [stone];
    assert Filter([glass, stone], record) == [stone];
    assert Filter([stone], (b: Block) => b.passable) == [];
    assert Filter([stone], (b: Block) => !b.passable) == [stone];
  }
}

=== FILE: java_text.dfy ===
/** The parts of `java.lang.String` and `java.lang.Integer` that the command
    dispatch relies on: case-insensitive comparison, upper-casing and the
    decimal `int` parser, together with `Integer.toString` as its inverse. */
module JavaText {
  import opened Wrappers

  /** Bounds of a Java `int`. */
  const INT_MIN: int := -2147483648
  const INT_MAX: int := 2147483647

  predicate InIntRange(v: int) {
    INT_MIN <= v <= INT_MAX
  }

  /** `Character.toUpperCase` restricted to ASCII letters. */
  function UpperChar(c: char): (u: char)
    ensures 'a' <= c <= 'z' ==> 'A' <= u <= 'Z'
    ensures !('a' <= c <= 'z') ==> u == c
  {
    if 'a' <= c <= 'z' then (c as int - 32) as char else c
  }

  /** `String.toUpperCase` restricted to ASCII letters. */
  function ToUpperCase(s: string): string
  {
    seq(|s|, i requires 0 <= i < |s| => UpperChar(s[i]))
  }

  /** `String.equalsIgnoreCase`: same length and equal characters up to case. */
  predicate EqualsIgnoreCase(s: string, t: string) {
    |s| == |t| && forall i :: 0 <= i < |s| ==> UpperChar(s[i]) == UpperChar(t[i])
  }

  predicate IsDigit(c: char) {
    '0' <= c <= '9'
  }

  predicate AllDigits(s: string) {
    forall i :: 0 <= i < |s| ==> IsDigit(s[i])
  }

  function DigitValue(c: char): (d: nat)
    requires IsDigit(c)
    ensures d < 10
  {
    c as int - '0' as int
  }

  function DigitChar(d: nat): (c: char)
    requires d < 10
    ensures IsDigit(c) && DigitValue(c) == d
  {
    ('0' as int + d) as char
  }

  /** Value of a string of decimal digits, most significant first. */
  function DigitsValue(s: string): nat
    requires AllDigits(s)
  {
    if |s| == 0 then 0 else DigitsValue(s[..|s| - 1]) * 10 + DigitValue(s[|s| - 1])
  }

  /** The optional sign in front of a decimal numeral. */
  datatype Sign = Unsigned | Plus | Minus {
    function Text(): (t: string)
      ensures |t| <= 1 && (|t| == 1 ==> t[0] == '-' || t[0] == '+')
    {
      match this
      case Unsigned => ""
      case Plus => "+"
      case Minus => "-"
    }

    /** The value of the numeral with magnitude `n`. */
    function Apply(n: nat): int {
      if this == Minus then -(n as int) else n
    }
  }

  /** `Integer.parseInt(s)` in radix 10: an optional `-` or `+`, then at least
      one digit, with a value that fits in an `int`; None stands for the
      `NumberFormatException` thrown otherwise. */
  function ParseInt(s: string): (r: Option<int>)
    ensures r.Some? ==> InIntRange(r.value)
    ensures r.Some? ==> |s| > 0 && AllDigits(if s[0] == '-' || s[0] == '+' then s[1..] else s)
    ensures |s| <= 1 && (|s| == 0 || !IsDigit(s[0])) ==> r.None?
  {
    if |s| == 0 then None
    else
      var signed := s[0] == '-' || s[0] == '+';
      var digits := if signed then s[1..] else s;
      if |digits| == 0 || !AllDigits(digits) then None
      else
        var magnitude: int := DigitsValue(digits);
        var v := if s[0] == '-' then -magnitude else magnitude;
        if InIntRange(v) then Some(v) else None
  }

  /** Decimal digits of a natural number, without leading zeros. */
  function Decimal(n: nat): (s: string)
    ensures |s| > 0 && AllDigits(s)
    ensures |s| > 1 ==> s[0] != '0'
  {
    if n < 10 then [DigitChar(n)] else Decimal(n / 10) + [DigitChar(n % 10)]
  }

  /** `Integer.toString(n)`: a minus sign for negative numbers, then the
      digits of the magnitude. */
  function IntToString(n: int): string
  {
    if n < 0 then Minus.Text() + Decimal(-n) else Decimal(n)
  }

  /** Reading back the digits of `n` gives `n`. */
  lemma {:induction false} DecimalValue(n: nat)
    ensures DigitsValue(Decimal(n)) == n
    decreases n
  {
    if n >= 10 {
      var s := Decimal(n);
      DecimalValue(n / 10);
      assert s[..|s| - 1] == Decimal(n / 10);
    }
  }

  /** A run of `k` zero digits. */
  function Zeros(k: nat): (z: string)
    ensures |z| == k && AllDigits(z)
  {
    seq(k, _ => '0')
  }

  /** Leading zeros do not change the value of a digit string. */
  lemma {:induction false} LeadingZerosValue(k: nat, d: string)
    requires AllDigits(d)
    ensures AllDigits(Zeros(k) + d) && DigitsValue(Zeros(k) + d) == DigitsValue(d)
    decreases |d| + k
  {
    var z := Zeros(k) + d;
    if |d| == 0 {
      assert z == Zeros(k);
      if k > 0 {
        assert z[..k - 1] == Zeros(k - 1) + [];
        LeadingZerosValue(k - 1, []);
      }
    } else {
      assert z[..|z| - 1] == Zeros(k) + d[..|d| - 1];
      LeadingZerosValue(k, d[..|d| - 1]);
    }
  }

  /** A digit string without a leading zero has a positive value. */
  lemma {:induction false} LeadingDigitPositive(d: string)
    requires |d| > 0 && AllDigits(d) && d[0] != '0'
    ensures DigitsValue(d) > 0
    decreases |d|
  {
    if |d| > 1 {
      LeadingDigitPositive(d[..|d| - 1]);
    }
  }

  /** A digit string without a leading zero is the decimal form of its value. */
  lemma {:induction false} DecimalOfDigits(d: string)
    requires |d| > 0 && AllDigits(d)
    requires |d| > 1 ==> d[0] != '0'
    ensures Decimal(DigitsValue(d)) == d
    decreases |d|
  {
    var v := DigitsValue(d);
    if |d| == 1 {
      assert d[..0] == [];
      assert DigitsValue(d[..0]) == 0;
      assert v == DigitValue(d[0]);
      assert DigitChar(DigitValue(d[0])) == d[0];
    } else {
      var p := d[..|d| - 1];
      LeadingDigitPositive(p);
      DecimalOfDigits(p);
      assert v / 10 == DigitsValue(p) && v % 10 == DigitValue(d[|d| - 1]);
      assert DigitChar(DigitValue(d[|d| - 1])) == d[|d| - 1];
      assert d == p + [d[|d| - 1]];
    }
  }

  /** Every digit string is some leading zeros followed by the decimal form
      of its value. */
  lemma {:induction false} DigitsAreZerosAndDecimal(d: string)
    requires |d| > 0 && AllDigits(d)
    ensures |Decimal(DigitsValue(d))| <= |d|
    ensures d == Zeros(|d| - |Decimal(DigitsValue(d))|) + Decimal(DigitsValue(d))
    decreases |d|
  {
    if |d| > 1 && d[0] == '0' {
      var t := d[1..];
      assert d == Zeros(1) + t;
      LeadingZerosValue(1, t);
      DigitsAreZerosAndDecimal(t);
      var k := |t| - |Decimal(DigitsValue(t))|;
      assert Zeros(1) + Zeros(k) == Zeros(k + 1);
    } else {
      DecimalOfDigits(d);
      assert Zeros(0) + d == d;
    }
  }

  /** `Integer.parseInt` of unsigned digits. */
  lemma ParseIntUnsigned(s: string)
    requires |s| > 0 && AllDigits(s)
    ensures ParseInt(s) == if InIntRange(DigitsValue(s)) then Some(DigitsValue(s) as int) else None
  {
    assert IsDigit(s[0]);
  }

  /** `Integer.parseInt` of a sign followed by digits. */
  lemma ParseIntSigned(s: string)
    requires |s| > 1 && (s[0] == '-' || s[0] == '+') && AllDigits(s[1..])
    ensures var v: int := if s[0] == '-' then -(DigitsValue(s[1..]) as int) else DigitsValue(s[1..]);
            ParseInt(s) == if InIntRange(v) then Some(v) else None
  {
  }

  /** `Integer.parseInt` of an optional sign followed by digits: the signed
      value of the digits when it fits in an `int`. */
  lemma ParseIntSignedDigits(sign: Sign, d: string)
    requires |d| > 0 && AllDigits(d)
    ensures var v := sign.Apply(DigitsValue(d));
            ParseInt(sign.Text() + d) == if InIntRange(v) then Some(v) else None
  {
    var s := sign.Text() + d;
    if sign == Unsigned {
      assert s == d;
      ParseIntUnsigned(d);
    } else {
      assert s[0] == sign.Text()[0] && s[1..] == d;
      ParseIntSigned(s);
    }
  }

  /** `Integer.parseInt` of an optional sign, any number of leading zeros and
      the decimal digits of `n`: the signed value when it fits in an `int`,
      an exception otherwise. */
  lemma ParseIntDecimal(sign: Sign, k: nat, n: nat)
    ensures var v := sign.Apply(n);
            ParseInt(sign.Text() + Zeros(k) + Decimal(n)) == if InIntRange(v) then Some(v) else None
  {
    var d := Zeros(k) + Decimal(n);
    assert sign.Text() + Zeros(k) + Decimal(n) == sign.Text() + d;
    LeadingZerosValue(k, Decimal(n));
    DecimalValue(n);
    ParseIntSignedDigits(sign, d);
  }

  /** `Integer.parseInt(Integer.toString(n)) == n` for every `int`. */
  lemma ParseIntToString(n: int)
    requires InIntRange(n)
    ensures ParseInt(IntToString(n)) == Some(n)
  {
    var sign := if n < 0 then Minus else Unsigned;
    var m: nat := if n < 0 then -n else n;
    ParseIntDecimal(sign, 0, m);
    assert sign.Text() + Zeros(0) + Decimal(m) == IntToString(n);
  }
}

=== FILE: materials.dfy ===
/** Block materials, identified by the name of their `org.bukkit.Material`
    constant. */
module Materials {
  import opened Wrappers

  datatype Material = Material(name: string)

  const PLAYER_HEAD := Material("PLAYER_HEAD")
  const PLAYER_WALL_HEAD := Material("PLAYER_WALL_HEAD")

  /** `Material.valueOf(name)` over the server's set of constant names
      `known`; None stands for the `IllegalArgumentException` it throws. */
  function ValueOf(known: set<string>, name: string): Option<Material>
  {
    if name in known then Some(Material(name)) else None
  }
}

=== FILE: recover_command.dfy ===
/** The `/recover` command: dispatch on the arguments, permission gating,
    the `fix` count handed to the explosion manager, the protected-block list
    with its PLAYER_HEAD pairing, the debug switch, and tab completion. The
    configuration store is reduced to the state it holds and a count of
    `saveConfig()` calls; messages become a `Reply`. */
module RecoverCommand {
  import opened Wrappers
  import opened JavaText
  import opened Materials

  const PERMISSION_COMMAND := "creeper.recover.command"
  const PERMISSION_ADMIN := "creeper.recover.admin"
  const PERMISSION_DEBUG := "creeper.recover.debug"

  /** A command sender, known by the permissions it holds. */
  datatype Sender = Sender(permissions: set<string>)

  predicate HasPermission(sender: Sender, permission: string) {
    permission in sender.permissions
  }

  /** The configuration values the command reads and writes, plus the
      number of times the configuration has been saved. */
  datatype State = State(protectedBlocks: set<Material>, debugEnabled: bool, saves: nat)

  /** What `configManager().load()` reads back from the configuration file. */
  datatype Stored = Stored(protectedBlocks: set<Material>, debugEnabled: bool)

  /** The surroundings of one command: who sends it, the names of the
      server's `Material` constants, and the stored configuration. */
  datatype Env = Env(sender: Sender, materialNames: set<string>, stored: Stored)

  /** The command's visible effect besides the state change. */
  datatype Reply =
    | NoPermission
      /** `recoverBlocks(amount)` is requested from the explosion manager. */
    | RecoveryScheduled(amount: int)
      /** `parseInt` throws inside the asynchronous task; nothing is recovered. */
    | RecoveryTaskFailed
    | Reloaded
    | Stats
    | Help(showsDebug: bool, showsProtected: bool)
    | ProtectedList(blocks: set<Material>)
    | Added(material: Material, wallHeadToo: bool)
    | AlreadyProtected(material: Material)
    | Removed(material: Material, wallHeadToo: bool)
    | NotProtected(material: Material)
    | InvalidMaterial(argument: string)
    | ProtectedUsage
    | DebugStatus(enabled: bool)
    | DebugChanged(enabled: bool)
    | DebugAlready(enabled: bool)
    | DebugUsage

  datatype Outcome = Outcome(state: State, reply: Reply)

  /** The count `fix <arg>` requests: everything for `all` in any case,
      otherwise the parsed number; None when `parseInt` throws. */
  function FixRequest(arg: string): (r: Option<int>)
    ensures r.Some? ==> InIntRange(r.value)
  {
    if EqualsIgnoreCase(arg, "all") then Some(INT_MAX) else ParseInt(arg)
  }

  /** `protected add <material>`: the PLAYER_HEAD pairing applies only when
      the material was newly added. */
  function AddProtected(st: State, m: Material): (o: Outcome)
    ensures m in o.state.protectedBlocks
    ensures st.protectedBlocks <= o.state.protectedBlocks
    ensures o.state.debugEnabled == st.debugEnabled
    ensures o.state.saves == st.saves + (if o.state.protectedBlocks == st.protectedBlocks then 0 else 1)
    ensures m in st.protectedBlocks <==> o.state == st
    ensures o.state.protectedBlocks - st.protectedBlocks <= {m, PLAYER_WALL_HEAD}
    ensures PLAYER_WALL_HEAD in o.state.protectedBlocks - st.protectedBlocks ==> m == PLAYER_HEAD || m == PLAYER_WALL_HEAD
  {
    if m in st.protectedBlocks then Outcome(st, AlreadyProtected(m))
    else
      var added := st.protectedBlocks + {m};
      var paired := if m == PLAYER_HEAD then added + {PLAYER_WALL_HEAD} else added;
      Outcome(st.(protectedBlocks := paired, saves := st.saves + 1), Added(m, m == PLAYER_HEAD))
  }

  /** `protected remove <material>`: the PLAYER_HEAD pairing applies only
      when the material was actually removed. */
  function RemoveProtected(st: State, m: Material): (o: Outcome)
    ensures m !in o.state.protectedBlocks
    ensures o.state.protectedBlocks <= st.protectedBlocks
    ensures o.state.debugEnabled == st.debugEnabled
    ensures o.state.saves == st.saves + (if o.state.protectedBlocks == st.protectedBlocks then 0 else 1)
    ensures m !in st.protectedBlocks <==> o.state == st
    ensures st.protectedBlocks - o.state.protectedBlocks <= {m, PLAYER_WALL_HEAD}
    ensures PLAYER_WALL_HEAD in st.protectedBlocks - o.state.protectedBlocks ==> m == PLAYER_HEAD || m == PLAYER_WALL_HEAD
  {
    if m !in st.protectedBlocks then Outcome(st, NotProtected(m))
    else
      var removed := st.protectedBlocks - {m};
      var paired := if m == PLAYER_HEAD then removed - {PLAYER_WALL_HEAD} else removed;
      Outcome(st.(protectedBlocks := paired, saves := st.saves + 1), Removed(m, m == PLAYER_HEAD))
  }

  /** `debug enable` / `debug disable`: saves only on an actual change. */
  function SetDebug(st: State, enable: bool): (o: Outcome)
    ensures o.state.debugEnabled == enable
    ensures o.state.protectedBlocks == st.protectedBlocks
    ensures o.state.saves == st.saves + (if st.debugEnabled == enable then 0 else 1)
  {
    if st.debugEnabled == enable then Outcome(st, DebugAlready(enable))
    else Outcome(st.(debugEnabled := enable, saves := st.saves + 1), DebugChanged(enable))
  }

  /** `handleProtectedCommand(sender, args)`. */
  function HandleProtected(st: State, env: Env, args: seq<string>): (o: Outcome)
    requires |args| >= 1
    ensures o.state.debugEnabled == st.debugEnabled
    // listing, usage, an unknown material and a no-op edit change nothing
    ensures (|| o.reply.ProtectedList? || o.reply.ProtectedUsage? || o.reply.InvalidMaterial?
             || o.reply.AlreadyProtected? || o.reply.NotProtected?) ==> o.state == st
    ensures o.reply.ProtectedList? ==> o.reply.blocks == st.protectedBlocks
    ensures o.state != st ==> o.reply.Added? || o.reply.Removed?
    // `protected` and `protected list` report the current set
    ensures |args| == 1 || (|args| == 2 && EqualsIgnoreCase(args[1], "list")) ==>
              o == Outcome(st, ProtectedList(st.protectedBlocks))
    // only a three-word add or remove of a known material can change anything
    ensures o.state != st ==>
              && |args| == 3 && ToUpperCase(args[2]) in env.materialNames
              && (EqualsIgnoreCase(args[1], "add") || EqualsIgnoreCase(args[1], "remove"))
  {
    if |args| == 1 || (|args| == 2 && EqualsIgnoreCase(args[1], "list")) then
      Outcome(st, ProtectedList(st.protectedBlocks))
    else if |args| == 3 && EqualsIgnoreCase(args[1], "add") then
      match ValueOf(env.materialNames, ToUpperCase(args[2]))
      case None => Outcome(st, InvalidMaterial(args[2]))
      case Some(m) => AddProtected(st, m)
    else if |args| == 3 && EqualsIgnoreCase(args[1], "remove") then
      match ValueOf(env.materialNames, ToUpperCase(args[2]))
      case None => Outcome(st, InvalidMaterial(args[2]))
      case Some(m) => RemoveProtected(st, m)
    else
      Outcome(st, ProtectedUsage)
  }

  /** The `debug` branch, once the debug permission has been checked. */
  function HandleDebug(st: State, args: seq<string>): (o: Outcome)
    requires |args| >= 1
    ensures o.state.protectedBlocks == st.protectedBlocks
    // the status query, usage and a no-op switch change nothing
    ensures o.reply.DebugStatus? || o.reply.DebugUsage? || o.reply.DebugAlready? ==> o.state == st
    ensures o.reply.DebugStatus? ==> o.reply.enabled == st.debugEnabled
    ensures o.state != st ==> o.reply.DebugChanged?
    // bare `debug` reports the current flag
    ensures |args| == 1 ==> o == Outcome(st, DebugStatus(st.debugEnabled))
    // only `debug enable` or `debug disable` can change anything
    ensures o.state != st ==>
              |args| == 2 && (EqualsIgnoreCase(args[1], "enable") || EqualsIgnoreCase(args[1], "disable"))
  {
    if |args| == 1 then Outcome(st, DebugStatus(st.debugEnabled))
    else if |args| == 2 then
      if EqualsIgnoreCase(args[1], "enable") then SetDebug(st, true)
      else if EqualsIgnoreCase(args[1], "disable") then SetDebug(st, false)
      else Outcome(st, DebugUsage)
    else Outcome(st, DebugUsage)
  }

  /** `onCommand(sender, command, label, args)`. */
  function OnCommand(st: State, env: Env, args: seq<string>): (o: Outcome)
    // without the base permission nothing runs
    ensures !HasPermission(env.sender, PERMISSION_COMMAND) ==> o == Outcome(st, NoPermission)
    // a recovery request changes no state
    ensures o.reply.RecoveryScheduled? || o.reply.RecoveryTaskFailed? ==>
              o.state == st && |args| == 2 && EqualsIgnoreCase(args[0], "fix")
    // at most one save per command
    ensures st.saves <= o.state.saves <= st.saves + 1
    // only admins change the protected set, except by reloading it
    ensures o.state.protectedBlocks != st.protectedBlocks ==>
              o.reply == Reloaded || HasPermission(env.sender, PERMISSION_ADMIN)
    ensures o.state.debugEnabled != st.debugEnabled ==>
              o.reply == Reloaded || HasPermission(env.sender, PERMISSION_DEBUG)
    // rejected and read-only commands change nothing
    ensures (|| o.reply.NoPermission? || o.reply.Stats? || o.reply.Help? || o.reply.ProtectedList?
             || o.reply.ProtectedUsage? || o.reply.InvalidMaterial? || o.reply.AlreadyProtected?
             || o.reply.NotProtected? || o.reply.DebugStatus? || o.reply.DebugUsage?
             || o.reply.DebugAlready?) ==> o.state == st
    // only a reload or an actual edit changes the state
    ensures o.state != st ==> o.reply.Reloaded? || o.reply.Added? || o.reply.Removed? || o.reply.DebugChanged?
    // only `reload`, an add or remove of a known material, and a debug switch
    // can change anything; `fix`, `stats`, help, listing, usage and status cannot
    ensures o.state != st ==>
              || (|args| == 1 && EqualsIgnoreCase(args[0], "reload"))
              || (&& |args| == 3 && EqualsIgnoreCase(args[0], "protected")
                  && ToUpperCase(args[2]) in env.materialNames
                  && (EqualsIgnoreCase(args[1], "add") || EqualsIgnoreCase(args[1], "remove")))
              || (&& |args| == 2 && EqualsIgnoreCase(args[0], "debug")
                  && (EqualsIgnoreCase(args[1], "enable") || EqualsIgnoreCase(args[1], "disable")))
  {
    var sender := env.sender;
    if !HasPermission(sender, PERMISSION_COMMAND) then Outcome(st, NoPermission)
    else if |args| == 2 && EqualsIgnoreCase(args[0], "fix") then
      match FixRequest(args[1])
      case Some(n) => Outcome(st, RecoveryScheduled(n))
      case None => Outcome(st, RecoveryTaskFailed)
    else if |args| == 1 && EqualsIgnoreCase(args[0], "reload") then
      Outcome(State(env.stored.protectedBlocks, env.stored.debugEnabled, st.saves), Reloaded)
    else if |args| == 1 && EqualsIgnoreCase(args[0], "stats") then
      Outcome(st, Stats)
    else if |args| >= 1 && EqualsIgnoreCase(args[0], "protected") then
      if HasPermission(sender, PERMISSION_ADMIN) then HandleProtected(st, env, args)
      else Outcome(st, NoPermission)
    else if |args| >= 1 && EqualsIgnoreCase(args[0], "debug") then
      if HasPermission(sender, PERMISSION_DEBUG) then HandleDebug(st, args)
      else Outcome(st, NoPermission)
    else
      Outcome(st, Help(HasPermission(sender, PERMISSION_DEBUG), HasPermission(sender, PERMISSION_ADMIN)))
  }

  /** `onTabComplete(sender, command, label, args)`. */
  function TabComplete(sender: Sender, args: seq<string>): (r: seq<string>)
    // the first argument: fix, reload, stats, then `debug` exactly for holders
    // of the debug permission and `protected` exactly for admins
    ensures |args| == 1 ==>
              && |r| == 3 + (if HasPermission(sender, PERMISSION_DEBUG) then 1 else 0)
                          + (if HasPermission(sender, PERMISSION_ADMIN) then 1 else 0)
              && r[..3] == ["fix", "reload", "stats"]
              && ("debug" in r <==> HasPermission(sender, PERMISSION_DEBUG))
              && ("protected" in r <==> HasPermission(sender, PERMISSION_ADMIN))
              && (HasPermission(sender, PERMISSION_DEBUG) ==> r[3] == "debug")
    // privileged sub-commands complete to nothing without the permission
    ensures |args| >= 2 && EqualsIgnoreCase(args[0], "debug") && !HasPermission(sender, PERMISSION_DEBUG) ==> r == []
    ensures |args| >= 2 && EqualsIgnoreCase(args[0], "protected") && !HasPermission(sender, PERMISSION_ADMIN) ==> r == []
    // nothing is offered with no arguments or beyond the third
    ensures |args| == 0 || |args| > 3 ==> r == []
  {
    if |args| == 1 then
      ["fix", "reload", "stats"]
        + (if HasPermission(sender, PERMISSION_DEBUG) then ["debug"] else [])
        + (if HasPermission(sender, PERMISSION_ADMIN) then ["protected"] else [])
    else if |args| == 2 && EqualsIgnoreCase(args[0], "fix") then
      ["all", "10", "100", "1000", "10000"]
    else if |args| == 2 && EqualsIgnoreCase(args[0], "debug") && HasPermission(sender, PERMISSION_DEBUG) then
      ["enable", "disable"]
    else if |args| == 2 && EqualsIgnoreCase(args[0], "protected") && HasPermission(sender, PERMISSION_ADMIN) then
      ["list", "add", "remove"]
    else if |args| == 3 && EqualsIgnoreCase(args[0], "protected")
            && (EqualsIgnoreCase(args[1], "add") || EqualsIgnoreCase(args[1], "remove"))
            && HasPermission(sender, PERMISSION_ADMIN) then
      ["PLAYER_HEAD", "ITEM_FRAME", "PAINTING", "ARMOR_STAND", "SIGN", "WALL_SIGN"]
    else
      []
  }

  /** `fix all`, in any letter case, asks for `Integer.MAX_VALUE` blocks. */
  lemma FixAllRequestsEverything(st: State, env: Env, verb: string, arg: string)
    requires HasPermission(env.sender, PERMISSION_COMMAND)
    requires EqualsIgnoreCase(verb, "fix") && EqualsIgnoreCase(arg, "all")
    ensures OnCommand(st, env, [verb, arg]) == Outcome(st, RecoveryScheduled(INT_MAX))
  {
  }

  /** A string that starts with a sign or a digit is never mistaken for `all`. */
  lemma NumeralIsNotAll(s: string)
    requires |s| > 0 && (IsDigit(s[0]) || s[0] == '-' || s[0] == '+')
    ensures !EqualsIgnoreCase(s, "all")
  {
    assert UpperChar(s[0]) != UpperChar("all"[0]);
  }

  /** `fix N` for N written with an optional sign and any number of leading
      zeros asks for exactly the value of N when it fits in an `int`; any
      other such N makes the recovery task fail. */
  lemma FixNumberRequestsExactly(st: State, env: Env, verb: string, sign: Sign, zeros: nat, n: nat)
    requires HasPermission(env.sender, PERMISSION_COMMAND)
    requires EqualsIgnoreCase(verb, "fix")
    ensures var v := sign.Apply(n);
            OnCommand(st, env, [verb, sign.Text() + Zeros(zeros) + Decimal(n)])
            == Outcome(st, if InIntRange(v) then RecoveryScheduled(v) else RecoveryTaskFailed)
  {
    var arg := sign.Text() + Zeros(zeros) + Decimal(n);
    assert IsDigit((Zeros(zeros) + Decimal(n))[0]);
    assert arg == sign.Text() + (Zeros(zeros) + Decimal(n));
    NumeralIsNotAll(arg);
    ParseIntDecimal(sign, zeros, n);
  }

  /** Newly protecting PLAYER_HEAD protects PLAYER_WALL_HEAD too, with one save. */
  lemma AddingHeadAddsWallHead(st: State)
    requires PLAYER_HEAD !in st.protectedBlocks
    ensures var o := AddProtected(st, PLAYER_HEAD);
            && o.state.protectedBlocks == st.protectedBlocks + {PLAYER_HEAD, PLAYER_WALL_HEAD}
            && o.state.saves == st.saves + 1
  {
  }

  /** An already protected PLAYER_HEAD is not re-paired: a missing
      PLAYER_WALL_HEAD stays missing. */
  lemma AddingProtectedHeadAddsNothing(st: State)
    requires PLAYER_HEAD in st.protectedBlocks
    ensures AddProtected(st, PLAYER_HEAD).state == st
    ensures PLAYER_WALL_HEAD !in st.protectedBlocks ==>
              PLAYER_WALL_HEAD !in AddProtected(st, PLAYER_HEAD).state.protectedBlocks
  {
  }

  /** Unprotecting PLAYER_HEAD unprotects PLAYER_WALL_HEAD too. */
  lemma RemovingHeadRemovesWallHead(st: State)
    requires PLAYER_HEAD in st.protectedBlocks
    ensures var o := RemoveProtected(st, PLAYER_HEAD);
            && o.state.protectedBlocks == st.protectedBlocks - {PLAYER_HEAD, PLAYER_WALL_HEAD}
            && o.state.saves == st.saves + 1
  {
  }

  /** The pairing only goes from PLAYER_HEAD to PLAYER_WALL_HEAD: changing
      PLAYER_WALL_HEAD never changes PLAYER_HEAD. */
  lemma WallHeadLeavesHeadAlone(st: State)
    ensures (PLAYER_HEAD in AddProtected(st, PLAYER_WALL_HEAD).state.protectedBlocks)
            == (PLAYER_HEAD in st.protectedBlocks)
    ensures (PLAYER_HEAD in RemoveProtected(st, PLAYER_WALL_HEAD).state.protectedBlocks)
            == (PLAYER_HEAD in st.protectedBlocks)
  {
  }

  /** Removing undoes adding, unless the material is PLAYER_HEAD and
      PLAYER_WALL_HEAD was already protected on its own; the configuration
      has been saved twice. */
  lemma AddThenRemoveRestores(st: State, m: Material)
    requires m !in st.protectedBlocks
    requires m == PLAYER_HEAD ==> PLAYER_WALL_HEAD !in st.protectedBlocks
    ensures RemoveProtected(AddProtected(st, m).state, m).state == st.(saves := st.saves + 2)
  {
    var mid := AddProtected(st, m).state;
    var back := RemoveProtected(mid, m).state;
    assert back.protectedBlocks == st.protectedBlocks;
  }

  /** The pairing is not undone symmetrically: a PLAYER_WALL_HEAD protected
      on its own is lost by adding and then removing PLAYER_HEAD. */
  lemma HeadRoundTripDropsWallHead()
    ensures var st := State({PLAYER_WALL_HEAD}, false, 0);
            RemoveProtected(AddProtected(st, PLAYER_HEAD).state, PLAYER_HEAD).state.protectedBlocks == {}
  {
    var st := State({PLAYER_WALL_HEAD}, false, 0);
    var mid := AddProtected(st, PLAYER_HEAD).state;
    assert mid.protectedBlocks == {PLAYER_WALL_HEAD, PLAYER_HEAD};
  }

  /** Adding or removing the same material twice equals doing it once. */
  lemma ProtectedEditsIdempotent(st: State, m: Material)
    ensures AddProtected(AddProtected(st, m).state, m).state == AddProtected(st, m).state
    ensures RemoveProtected(RemoveProtected(st, m).state, m).state == RemoveProtected(st, m).state
  {
  }

  /** `protected add|remove <name>` from an admin reaches the set edit with
      the material named by the upper-cased argument. */
  lemma ProtectedCommandEdits(st: State, env: Env, verb: string, action: string, name: string)
    requires HasPermission(env.sender, PERMISSION_COMMAND) && HasPermission(env.sender, PERMISSION_ADMIN)
    requires EqualsIgnoreCase(verb, "protected")
    requires ToUpperCase(name) in env.materialNames
    ensures EqualsIgnoreCase(action, "add") ==>
              OnCommand(st, env, [verb, action, name]) == AddProtected(st, Material(ToUpperCase(name)))
    ensures EqualsIgnoreCase(action, "remove") ==>
              OnCommand(st, env, [verb, action, name]) == RemoveProtected(st, Material(ToUpperCase(name)))
  {
    var args := [verb, action, name];
    assert !EqualsIgnoreCase(args[0], "fix");
    if EqualsIgnoreCase(action, "remove") {
      assert !EqualsIgnoreCase(action, "add") by {
        assert |action| != |"add"|;
      }
    }
  }

  /** `debug enable|disable` leaves the flag as requested, saves only when
      it changed, and a repeat of the command changes nothing. */
  lemma DebugCommandIdempotent(st: State, env: Env, verb: string, action: string, enable: bool)
    requires HasPermission(env.sender, PERMISSION_COMMAND) && HasPermission(env.sender, PERMISSION_DEBUG)
    requires EqualsIgnoreCase(verb, "debug")
    requires if enable then EqualsIgnoreCase(action, "enable") else EqualsIgnoreCase(action, "disable")
    ensures var once := OnCommand(st, env, [verb, action]).state;
            && once.debugEnabled == enable
            && once.saves == st.saves + (if st.debugEnabled == enable then 0 else 1)
            && OnCommand(once, env, [verb, action]).state == once
  {
    var args := [verb, action];
    assert !EqualsIgnoreCase(args[0], "fix") && !EqualsIgnoreCase(args[0], "protected");
    if !enable {
      assert !EqualsIgnoreCase(action, "enable") by {
        assert |action| != |"enable"|;
      }
    }
  }

  /** Every completion offered after `fix` is accepted by `fix` and asks for
      a positive number of blocks. */
  lemma FixCompletionsAccepted(sender: Sender, verb: string, partial: string)
    requires EqualsIgnoreCase(verb, "fix")
    ensures |TabComplete(sender, [verb, partial])| == 5 && "all" in TabComplete(sender, [verb, partial])
    ensures forall c :: c in TabComplete(sender, [verb, partial]) ==>
              FixRequest(c).Some? && FixRequest(c).value > 0
  {
    var r := TabComplete(sender, [verb, partial]);
    assert r == ["all", "10", "100", "1000", "10000"];
    FixCompletionCounts();
  }

  /** A debug-permission holder is offered two `debug` completions, and
      each one is a valid switch: it changes the flag or reports it unchanged. */
  lemma DebugCompletionsAccepted(st: State, sender: Sender, verb: string, partial: string)
    requires EqualsIgnoreCase(verb, "debug") && HasPermission(sender, PERMISSION_DEBUG)
    ensures |TabComplete(sender, [verb, partial])| == 2
    ensures forall c :: c in TabComplete(sender, [verb, partial]) ==>
              HandleDebug(st, [verb, c]).reply.DebugChanged? || HandleDebug(st, [verb, c]).reply.DebugAlready?
  {
    assert !EqualsIgnoreCase(verb, "fix");
    var r := TabComplete(sender, [verb, partial]);
    assert r == ["enable", "disable"];
    assert !EqualsIgnoreCase("disable", "enable");
  }

  /** An admin is offered three `protected` completions: `list` reports the
      set, and `add` and `remove` followed by a known material reach the
      matching edit. */
  lemma ProtectedCompletionsAccepted(st: State, env: Env, verb: string, partial: string, name: string)
    requires EqualsIgnoreCase(verb, "protected") && HasPermission(env.sender, PERMISSION_ADMIN)
    requires ToUpperCase(name) in env.materialNames
    ensures |TabComplete(env.sender, [verb, partial])| == 3
    ensures forall c :: c in TabComplete(env.sender, [verb, partial]) ==>
              || HandleProtected(st, env, [verb, c]) == Outcome(st, ProtectedList(st.protectedBlocks))
              || HandleProtected(st, env, [verb, c, name]) == AddProtected(st, Material(ToUpperCase(name)))
              || HandleProtected(st, env, [verb, c, name]) == RemoveProtected(st, Material(ToUpperCase(name)))
  {
    assert !EqualsIgnoreCase(verb, "fix") && !EqualsIgnoreCase(verb, "debug");
    var r := TabComplete(env.sender, [verb, partial]);
    assert r == ["list", "add", "remove"];
    assert !EqualsIgnoreCase("remove", "add");
  }

  /** The numeric `fix` completions request their own value. */
  lemma FixCompletionCounts()
    ensures FixRequest("all") == Some(INT_MAX)
    ensures FixRequest("10") == Some(10) && FixRequest("100") == Some(100)
    ensures FixRequest("1000") == Some(1000) && FixRequest("10000") == Some(10000)
  {
    FixDecimal(10);
    FixDecimal(100);
    assert Decimal(10) == "10" && Decimal(100) == "100";
    FixDecimal(1000);
    FixDecimal(10000);
    assert Decimal(1000) == "1000" && Decimal(10000) == "10000";
  }

  /** The decimal digits of a positive `int` request exactly that many blocks. */
  lemma FixDecimal(n: nat)
    requires 0 < n <= INT_MAX
    ensures FixRequest(Decimal(n)) == Some(n)
  {
    ParseIntDecimal(Unsigned, 0, n);
    assert Unsigned.Text() + Zeros(0) + Decimal(n) == Decimal(n);
    NumeralIsNotAll(Decimal(n));
  }
}

=== FILE: seqs.dfy ===
/** Order-preserving filtering of sequences, the shape of Java's
    `Iterator.remove`, `Collection.removeIf` and `Stream.filter` loops. */
module Seqs {

  /** The elements of `s` satisfying `p`, in their original order. */
  function Filter<T>(s: seq<T>, p: T -> bool): (r: seq<T>)
    ensures |r| <= |s|
    ensures forall i :: 0 <= i < |r| ==> p(r[i])
    ensures multiset(r) <= multiset(s)
  {
    if |s| == 0 then []
    else
      var rest := Filter(s[1..], p);
      assert s == [s[0]] + s[1..];
      if p(s[0]) then [s[0]] + rest else rest
  }

  /** Number of elements of `s` satisfying `p`. */
  function Count<T>(s: seq<T>, p: T -> bool): nat
  {
    if |s| == 0 then 0 else (if p(s[0]) then 1 else 0) + Count(s[1..], p)
  }

  /** `a` is obtained from `b` by deleting elements, keeping the order of the rest. */
  ghost predicate SubsequenceOf<T>(a: seq<T>, b: seq<T>)
    decreases |b|
  {
    if |a| == 0 then true
    else if |b| == 0 then false
    else if a[0] == b[0] then SubsequenceOf(a[1..], b[1..])
    else SubsequenceOf(a, b[1..])
  }

  /** A filter keeps every occurrence of an element satisfying the predicate
      and none of an element failing it. */
  lemma {:induction false} FilterMultiplicity<T>(s: seq<T>, p: T -> bool, x: T)
    ensures multiset(Filter(s, p))[x] == if p(x) then multiset(s)[x] else 0
    decreases |s|
  {
    if |s| > 0 {
      FilterMultiplicity(s[1..], p, x);
      assert s == [s[0]] + s[1..];
    }
  }

  /** Membership in a filtered sequence, in both directions. */
  lemma FilterMembership<T>(s: seq<T>, p: T -> bool, x: T)
    ensures x in Filter(s, p) <==> x in s && p(x)
  {
    FilterMultiplicity(s, p, x);
    assert x in Filter(s, p) <==> multiset(Filter(s, p))[x] > 0;
    assert x in s <==> multiset(s)[x] > 0;
  }

  /** Splitting a sequence by a predicate and its complement and putting the
      parts back together is a permutation. */
  lemma {:induction false} PartitionPermutation<T>(s: seq<T>, p: T -> bool, q: T -> bool)
    requires forall x :: q(x) == !p(x)
    ensures multiset(Filter(s, p) + Filter(s, q)) == multiset(s)
    decreases |s|
  {
    if |s| > 0 {
      PartitionPermutation(s[1..], p, q);
      assert s == [s[0]] + s[1..];
    }
  }

  /** In a partition put back together, every element satisfying `p` comes
      before every element that does not. */
  lemma PartitionOrdered<T(!new)>(s: seq<T>, p: T -> bool, q: T -> bool)
    requires forall x :: q(x) == !p(x)
    ensures var r := Filter(s, p) + Filter(s, q);
            forall i, j :: 0 <= i < j < |r| && p(r[j]) ==> p(r[i])
  {
    var front, back := Filter(s, p), Filter(s, q);
    var r := front + back;
    assert forall i :: 0 <= i < |front| ==> r[i] == front[i];
    forall i | |front| <= i < |r| ensures !p(r[i]) {
      var x := back[i - |front|];
      assert r[i] == x && q(x);
      assert q(x) == !p(x);
    }
  }

  /** Filtering keeps the relative order of the kept elements. */
  lemma {:induction false} FilterIsSubsequence<T>(s: seq<T>, p: T -> bool)
    ensures SubsequenceOf(Filter(s, p), s)
    decreases |s|
  {
    if |s| == 0 {
    } else {
      FilterIsSubsequence(s[1..], p);
      var rest := Filter(s[1..], p);
      if p(s[0]) {
        assert Filter(s, p) == [s[0]] + rest;
        assert ([s[0]] + rest)[1..] == rest;
      } else {
        assert Filter(s, p) == rest;
        SkipHead(rest, s);
      }
    }
  }

  /** A subsequence of the tail of `b` is a subsequence of `b`. */
  lemma {:induction false} SkipHead<T>(a: seq<T>, b: seq<T>)
    requires |b| > 0
    requires SubsequenceOf(a, b[1..])
    ensures SubsequenceOf(a, b)
    decreases |b|, |a|
  {
    if |a| > 0 && a[0] == b[0] {
      SubsequenceTail(a, b[1..]);
    }
  }

  /** Dropping the head of a non-empty subsequence keeps it a subsequence. */
  lemma {:induction false} SubsequenceTail<T>(a: seq<T>, b: seq<T>)
    requires |a| > 0
    requires SubsequenceOf(a, b)
    ensures SubsequenceOf(a[1..], b)
    decreases |b|, |a|
  {
    assert |b| > 0;
    if a[0] == b[0] {
      SkipHead(a[1..], b);
    } else {
      SubsequenceTail(a, b[1..]);
      SkipHead(a[1..], b);
    }
  }

  /** A filter keeps as many elements as satisfy its predicate and drops as
      many as satisfy the complementary predicate `q`. */
  lemma {:induction false} FilterDropsCount<T>(s: seq<T>, p: T -> bool, q: T -> bool)
    requires forall x :: q(x) == !p(x)
    ensures |Filter(s, p)| == Count(s, p)
    ensures |s| - |Filter(s, p)| == Count(s, q)
    decreases |s|
  {
    if |s| > 0 {
      FilterDropsCount(s[1..], p, q);
    }
  }
}

=== FILE: world_guard.dfy ===
/** The region gate of the WorldGuard integration: the once-only start-up
    probe, the custom `creeper-recover` state flag and the fallback scan for
    regions that explicitly allow TNT. The reflective calls into WorldGuard are
    replaced by the values they would return. */
module WorldGuard {
  import opened Wrappers

  /** WorldGuard's `StateFlag.State`. */
  datatype FlagState = Allow | Deny

  /** One applicable region: its id and the value of its TNT flag (None when
      the region does not set it). */
  datatype Region = Region(id: string, tnt: Option<FlagState>)

  /** Id of the world-wide default region, never consulted by the TNT scan. */
  const GLOBAL_REGION := "__global__"

  /** The static fields of the integration class. `flagHandle` stands for
      `creeperRecoverDisabledFlag != null`. */
  datatype Integration = Integration(initialized: bool, worldGuardEnabled: bool, flagHandle: bool)

  /** Class-load state: nothing probed yet. */
  const UNINITIALIZED := Integration(false, false, false)

  /** How the reflective flag registration ended. The handle is stored after
      the flag object is built and before it is registered, so a failing
      `register` call still leaves the handle set. */
  datatype Registration = FailedBeforeConstruction | FailedAfterConstruction | Registered

  /** What the start-up probe of the plugin manager sees. `lookupFails`
      stands for an exception while looking the plugin up. */
  datatype Startup = Startup(lookupFails: bool, present: bool, pluginEnabled: bool, registration: Registration)

  /** What the region lookups at one location return. `failed` stands for any
      exception thrown along the reflective chain; `flag` is the queried value
      of the custom flag and `regions` the applicable regions in iteration
      order. */
  datatype RegionQuery = RegionQuery(
    failed: bool,
    hasRegionManager: bool,
    flag: Option<FlagState>,
    regions: seq<Region>)

  /** `initialize()`: probes once; every later call returns immediately. */
  function Initialize(ig: Integration, env: Startup): (r: Integration)
    ensures r.initialized
    ensures ig.initialized ==> r == ig
    ensures !ig.initialized && !env.lookupFails ==>
              r.worldGuardEnabled == (env.present && env.pluginEnabled)
    ensures !ig.initialized && env.lookupFails ==> !r.worldGuardEnabled && r.flagHandle == ig.flagHandle
    ensures r.flagHandle != ig.flagHandle ==>
              r.worldGuardEnabled && env.registration != FailedBeforeConstruction
    // a first call that finds WorldGuard enabled keeps the handle exactly when
    // it was already set or the flag object got constructed
    ensures !ig.initialized && !env.lookupFails && env.present && env.pluginEnabled ==>
              (r.flagHandle <==> ig.flagHandle || env.registration != FailedBeforeConstruction)
  {
    if ig.initialized then ig
    else if env.lookupFails then ig.(worldGuardEnabled := false, initialized := true)
    else
      var enabled := env.present && env.pluginEnabled;
      var handle := if enabled then RegisterCustomFlag(ig.flagHandle, env.registration) else ig.flagHandle;
      Integration(true, enabled, handle)
  }

  /** `registerCustomFlag()`: whether the flag handle is set afterwards. */
  function RegisterCustomFlag(handle: bool, registration: Registration): bool
  {
    if registration == FailedBeforeConstruction then handle else true
  }

  /** Whether `region` is a non-global region that sets TNT to ALLOW. */
  predicate AllowsTnt(region: Region) {
    region.id != GLOBAL_REGION && region.tnt == Some(Allow)
  }

  /** Some applicable non-global region explicitly allows TNT. */
  predicate AnyRegionAllowsTnt(regions: seq<Region>) {
    exists i :: 0 <= i < |regions| && AllowsTnt(regions[i])
  }

  /** The region loop of `isTntExplicitlyAllowedInternal`: skip `__global__`,
      return true at the first region allowing TNT, false after the last. */
  function ScanTnt(regions: seq<Region>): (r: bool)
    ensures r <==> AnyRegionAllowsTnt(regions)
    decreases |regions|
  {
    if |regions| == 0 then false
    else if regions[0].id == GLOBAL_REGION then ScanTnt(regions[1..])
    else if regions[0].tnt == Some(Allow) then true
    else
      var rest := ScanTnt(regions[1..]);
      assert AnyRegionAllowsTnt(regions[1..]) ==> AnyRegionAllowsTnt(regions) by {
        if AnyRegionAllowsTnt(regions[1..]) {
          var i :| 0 <= i < |regions[1..]| && AllowsTnt(regions[1..][i]);
          assert AllowsTnt(regions[i + 1]);
        }
      }
      rest
  }

  /** `isTntExplicitlyAllowedInternal(location)`. */
  function TntExplicitlyAllowed(ig: Integration, q: RegionQuery): (r: bool)
    ensures r ==> ig.worldGuardEnabled && !q.failed && q.hasRegionManager
    ensures ig.worldGuardEnabled && !q.failed && q.hasRegionManager ==> (r <==> AnyRegionAllowsTnt(q.regions))
  {
    if !ig.worldGuardEnabled then false
    else if q.failed then false
    else if !q.hasRegionManager then false
    else ScanTnt(q.regions)
  }

  /** `shouldSkipRecovery(location)`: true when recovery must be skipped. */
  function ShouldSkipRecovery(ig: Integration, q: RegionQuery): (skip: bool)
    ensures skip ==> ig.worldGuardEnabled && ig.flagHandle && !q.failed && q.hasRegionManager
    ensures skip ==> q.flag != Some(Allow)
  {
    if !ig.worldGuardEnabled || !ig.flagHandle then false
    else if q.failed then false
    else if !q.hasRegionManager then false
    else if q.flag == Some(Allow) then false
    else if q.flag == Some(Deny) then true
    else TntExplicitlyAllowed(ig, q)
  }

  /** The region loop of `isTntExplicitlyAllowedInternal`, with its early
      return on the first non-global region allowing TNT. */
  method ScanRegions(regions: seq<Region>) returns (allowed: bool, at: nat)
    ensures allowed <==> AnyRegionAllowsTnt(regions)
    ensures allowed == ScanTnt(regions)
    ensures allowed ==> at < |regions| && AllowsTnt(regions[at])
    ensures allowed ==> forall j :: 0 <= j < at ==> !AllowsTnt(regions[j])
  {
    var i := 0;
    while i < |regions|
      invariant 0 <= i <= |regions|
      invariant forall j :: 0 <= j < i ==> !AllowsTnt(regions[j])
    {
      var region := regions[i];
      if region.id == GLOBAL_REGION {
        i := i + 1;
        continue;
      }
      if region.tnt == Some(Allow) {
        return true, i;
      }
      i := i + 1;
    }
    return false, 0;
  }

  /** Later calls of `initialize` change nothing. */
  lemma InitializeOnceOnly(ig: Integration, first: Startup, later: Startup)
    ensures Initialize(Initialize(ig, first), later) == Initialize(ig, first)
  {
  }

  /** Without WorldGuard, or without the custom flag, nothing is skipped. */
  lemma UnavailableNeverSkips(ig: Integration, q: RegionQuery)
    requires !ig.worldGuardEnabled || !ig.flagHandle
    ensures !ShouldSkipRecovery(ig, q)
  {
  }

  /** The custom flag beats any region's TNT setting. */
  lemma FlagOverridesRegions(ig: Integration, q: RegionQuery, regions: seq<Region>)
    requires ig.worldGuardEnabled && ig.flagHandle && !q.failed && q.hasRegionManager
    requires q.flag.Some?
    ensures ShouldSkipRecovery(ig, q.(regions := regions)) == (q.flag == Some(Deny))
  {
    var q' := q.(regions := regions);
    assert q'.flag == q.flag && !q'.failed && q'.hasRegionManager;
    match q.flag.value
    case Allow => assert !ShouldSkipRecovery(ig, q');
    case Deny => assert ShouldSkipRecovery(ig, q');
  }

  /** With the custom flag unset, the decision is the TNT scan. */
  lemma UnsetFlagFallsBackToTnt(ig: Integration, q: RegionQuery)
    requires ig.flagHandle && q.flag.None?
    ensures ShouldSkipRecovery(ig, q) == TntExplicitlyAllowed(ig, q)
  {
  }

  /** A global region allowing TNT never decides the scan, wherever it appears. */
  lemma GlobalRegionIgnored(before: seq<Region>, after: seq<Region>, tnt: Option<FlagState>)
    ensures AnyRegionAllowsTnt(before + [Region(GLOBAL_REGION, tnt)] + after)
            == AnyRegionAllowsTnt(before + after)
  {
    var with := before + [Region(GLOBAL_REGION, tnt)] + after;
    var without := before + after;
    if AnyRegionAllowsTnt(with) {
      var i :| 0 <= i < |with| && AllowsTnt(with[i]);
      if i < |before| {
        assert without[i] == with[i];
      } else {
        assert i > |before|;
        assert without[i - 1] == with[i];
      }
    }
    if AnyRegionAllowsTnt(without) {
      var i :| 0 <= i < |without| && AllowsTnt(without[i]);
      if i < |before| {
        assert with[i] == without[i];
      } else {
        assert with[i + 1] == without[i];
      }
    }
  }

  /** No region manager for the world: neither function restricts recovery. */
  lemma NoRegionManagerAllows(ig: Integration, q: RegionQuery)
    requires !q.hasRegionManager
    ensures !ShouldSkipRecovery(ig, q) && !TntExplicitlyAllowed(ig, q)
  {
  }

  /** Any failure of the reflective chain defaults to allowing recovery. */
  lemma FailureAllows(ig: Integration, q: RegionQuery)
    requires q.failed
    ensures !ShouldSkipRecovery(ig, q) && !TntExplicitlyAllowed(ig, q)
  {
  }

  /** As written, for every start-up where `register` throws after the flag
      object was built, an unset custom flag still falls back to the TNT scan. */
  lemma RegisterFailureKeepsTntFallback(env: Startup, q: RegionQuery)
    requires !env.lookupFails && env.present && env.pluginEnabled
    requires env.registration == FailedAfterConstruction
    requires !q.failed && q.hasRegionManager && q.flag.None?
    ensures ShouldSkipRecovery(Initialize(UNINITIALIZED, env), q) == AnyRegionAllowsTnt(q.regions)
  {
  }

  /** Flag registration as the guard of `shouldSkipRecovery` expects it: the
      handle is kept only when the flag was registered. */
  function RegisterCustomFlagIntended(handle: bool, registration: Registration): bool
  {
    if registration == Registered then true else handle
  }

  /** `initialize()` with the intended registration. */
  function InitializeIntended(ig: Integration, env: Startup): (r: Integration)
    ensures r.initialized
    ensures ig.initialized ==> r == ig
    ensures !ig.initialized && !env.lookupFails ==>
              r.worldGuardEnabled == (env.present && env.pluginEnabled)
    ensures !ig.initialized && env.lookupFails ==> !r.worldGuardEnabled && r.flagHandle == ig.flagHandle
    ensures r.flagHandle != ig.flagHandle ==> r.worldGuardEnabled && env.registration == Registered
    // a first call that finds WorldGuard enabled keeps the handle exactly when
    // it was already set or the flag got registered
    ensures !ig.initialized && !env.lookupFails && env.present && env.pluginEnabled ==>
              (r.flagHandle <==> ig.flagHandle || env.registration == Registered)
  {
    if ig.initialized then ig
    else if env.lookupFails then ig.(worldGuardEnabled := false, initialized := true)
    else
      var enabled := env.present && env.pluginEnabled;
      var handle := if enabled then RegisterCustomFlagIntended(ig.flagHandle, env.registration) else ig.flagHandle;
      Integration(true, enabled, handle)
  }

  /** With the intended registration, a successful start-up makes the custom
      flag effective: DENY at the location skips recovery. */
  lemma RegisteredDenySkips(env: Startup, q: RegionQuery)
    requires !env.lookupFails && env.present && env.pluginEnabled && env.registration == Registered
    requires !q.failed && q.hasRegionManager && q.flag == Some(Deny)
    ensures ShouldSkipRecovery(InitializeIntended(UNINITIALIZED, env), q)
  {
  }

  /** The written and the intended start-up differ only when `register`
      throws after the flag object was built. */
  lemma InitializeDiffersOnlyAfterConstruction(ig: Integration, env: Startup)
    ensures env.registration != FailedAfterConstruction ==>
              Initialize(ig, env) == InitializeIntended(ig, env)
    ensures !ig.initialized && !ig.flagHandle && !env.lookupFails && env.present && env.pluginEnabled
            && env.registration == FailedAfterConstruction ==>
              Initialize(ig, env).flagHandle && !InitializeIntended(ig, env).flagHandle
  {
  }

  /** With the intended registration, a failed registration at start-up
      never restricts recovery, whatever the regions say. */
  lemma RegistrationFailureNeverRestricts(env: Startup, q: RegionQuery)
    requires env.registration != Registered
    ensures !ShouldSkipRecovery(InitializeIntended(UNINITIALIZED, env), q)
  {
    var ig := InitializeIntended(UNINITIALIZED, env);
    assert !ig.flagHandle;
  }
}

=== FILE: wrappers.dfy ===
/** The Some/None datatype used for Java's nullable references and for
    operations that can throw. */
module Wrappers {

  datatype Option<+T> = None | Some(value: T)
}
